=== FILE: README.md ===
# Oven Investigation Planner: name rotation and chat log

A Dafny model of the stateful core of the Streamlit page `streamlit_app.py`,
the "AI Group Coach" that asks two students of a group a question each:

- **Name rotation** (`pick_random_names`). The roster field is split on
  commas. Each piece is stripped, and empty pieces are dropped. A roster with
  fewer entries than the group size is refused with a warning. Otherwise the
  picker samples among the names not yet called in this rotation. When too
  few are left it starts a new rotation: it clears the called set and samples
  from the whole roster. The names it picks are then recorded as called.
- **Dispatch** (`generate_response`). Two names are picked. The typed message,
  or the trigger's canned default, is recorded together with the stripped
  reply of the chat-completion service. If the call raises, an `ERROR` entry
  holding the exception text is recorded instead. A refused roster records
  nothing.
- **Chat form guard.** A message is sent only when the form was submitted, the
  message is not empty, and it differs from the last message sent.
- **Rendering.** The history is shown newest entry first.

Modules, in dependency order:

- `Text`: Python's `str.strip()` and `str.split(",")`, the white-space table
  of `str.isspace`, and `",".join`.
- `Roster`: parsing the roster field.
- `Sampling`: `random.sample`, with the randomness given as explicit rolls.
- `Rotation`: the picker.
- `Session`: the session state, the chat form, the buttons and the rendering.
- `Scenarios`: worked examples, stated for rosters typed as
  `"Alice, Bob, Cara"`.

The group-size check at line 13 counts roster *entries*, not different
names. So `"Alice, Alice"` passes it, and Alice is asked both questions
(`Rotation.RepeatedNameCalledTwice`).

The text of the source file is encoded twice over: its UTF-8 bytes were read
as Mac Roman and encoded as UTF-8 again. Python reads the file as UTF-8, so
the apostrophe of the second default message (line 76) is the three
characters U+201A U+00C4 U+00F4, and a press of the "begin" button records
`We‚Äôre not sure where to start. What do you suggest?`. The model uses
exactly these characters.

## Model

| member | source | states |
|---|---|---|
| Text.Strip | streamlit_app.py:12 | The result has no white space at either end and is no longer than the input; an already stripped string is returned unchanged |
| Text.SpaceTable | streamlit_app.py:12 | The white space `strip()` removes is exactly the characters Python's `str.isspace` accepts, listed one by one (tab to carriage return, file to unit separator, space, NEL, no-break space, U+1680, U+2000 to U+200A, U+2028, U+2029, U+202F, U+205F, U+3000) |
| Text.StripPadded | streamlit_app.py:12 | Stripping removes exactly the white space around a stripped core: `strip(lead + core + trail) == core` |
| Text.StripNoChar | streamlit_app.py:12 | Stripping never adds a character, so a comma-free piece stays comma-free |
| Text.Split | streamlit_app.py:12 | Splitting on commas always yields at least one piece, and no piece contains a comma |
| Text.JoinSplit | streamlit_app.py:12 | Splitting loses nothing: joining the pieces with commas gives back the text |
| Text.SplitJoin | streamlit_app.py:12 | Comma-free pieces joined with commas split back into the same pieces |
| Roster.ParseRoster | streamlit_app.py:12 | Every parsed entry is non-empty, has no surrounding white space and no comma |
| Roster.CleanMembers | streamlit_app.py:12 | The list comprehension keeps a value iff it is a non-empty stripped piece |
| Roster.ParseMembers | streamlit_app.py:12 | The roster holds a value iff it is a non-empty stripped comma-separated piece of the text |
| Text.SplitConcat | streamlit_app.py:12 | Splitting two texts joined by a comma gives the pieces of the first followed by the pieces of the second |
| Roster.CleanCounts | streamlit_app.py:12 | The comprehension keeps every stripped piece exactly as often as it occurs, and only the empty one is dropped |
| Roster.CleanAppend | streamlit_app.py:12 | The comprehension works piece by piece and keeps the order: cleaning a concatenation is the concatenation of the cleaned parts |
| Roster.ParseCounts | streamlit_app.py:12 | Each non-empty stripped piece of the field appears in the roster exactly as often as in the field |
| Roster.ParseConcat | streamlit_app.py:12 | Two fields joined by a comma parse to the entries of the first followed by those of the second |
| Roster.ParsePiece | streamlit_app.py:12 | A comma-free piece parses to itself stripped, or to no entry when it is blank; with `ParseConcat` this fixes the roster of every field, e.g. `",A"` gives `["A"]` |
| Roster.ParseEmpty | streamlit_app.py:12 | An empty roster field parses to no names |
| Roster.ParseJoin | streamlit_app.py:12 | Names joined by commas parse back to exactly those names, in order, repeats included; no names at all is the empty field |
| Roster.ParseTyped | streamlit_app.py:12 | Names typed as `"A, B, C"` parse back to exactly those names, in order |
| Sampling.Draw | streamlit_app.py:19 | A sample has the requested size and takes entries from distinct positions of the pool (multiset inclusion) |
| Sampling.DrawReachesEverySample | streamlit_app.py:19 | Every arrangement of entries from distinct positions of the pool is drawn by some rolls |
| Sampling.DrawnFromDistinct | streamlit_app.py:19 | A sample of a pool without repeated values has no repeated values |
| Rotation.Unused | streamlit_app.py:15 | The available names are the roster's occurrences of names not yet called, with their multiplicities, and nothing else |
| Rotation.UnusedWhenNoneCalled | streamlit_app.py:15 | With none of the roster called, every entry is available, in order |
| Rotation.UnusedWhenAllCalled | streamlit_app.py:15 | With the whole roster called, no entry is available |
| Rotation.Candidates | streamlit_app.py:15-17 | A new rotation starts iff fewer than `count` names are available; then the candidates are the whole roster, otherwise exactly the roster's uncalled entries with their multiplicities; a big enough roster always leaves enough candidates |
| Rotation.PickFrom | streamlit_app.py:11-22 | Refused iff the roster has fewer than `count` entries, with the group warning and the called set untouched; otherwise `count` names from distinct roster positions, new rotation iff too few were uncalled, uncalled names when no new rotation, and the called set is the old one (or empty on a new rotation) plus the names picked |
| Rotation.RotationProgress | streamlit_app.py:15-21 | On a roster without repeats the called set grows by exactly `count` within a rotation, and holds exactly `count` names after a new rotation starts |
| Rotation.PickNames | streamlit_app.py:11-22 | On the roster field's text: refused with the group warning and the called set unchanged iff the field holds fewer than `count` names; otherwise `count` names from distinct positions of the parsed field, each a non-empty, stripped, comma-free name; a new rotation starts iff fewer than `count` of the field's entries are uncalled, the picks are uncalled when it does not, and the called set is the old one (or empty on a new rotation) plus the names picked |
| Rotation.PickReachesEverySample | streamlit_app.py:15-19 | Any `count` roster entries from distinct positions, all uncalled unless the rotation starts over, are a possible pick |
| Rotation.UsedStaysInRoster | streamlit_app.py:15-21 | If every called name is on the roster, this stays so after a pick |
| Rotation.CalledPair | streamlit_app.py:19-21 | Two names sampled from a roster without repeats differ, and recording them adds exactly those two |
| Rotation.FirstPickOfSession | streamlit_app.py:11-22 | The first pick from a roster of two or more different names calls two different students on it, without a new rotation, and records exactly them |
| Rotation.ExhaustedRosterReshuffles | streamlit_app.py:15-21 | When everyone has been called, the next pick starts a new rotation instead of failing, and the called set becomes exactly the two names picked |
| Rotation.RepeatedNameCalledTwice | streamlit_app.py:12-21 | A roster that repeats one name passes the group-size check and calls that name twice; a new rotation starts iff the name had been called |
| Session.Start | streamlit_app.py:25-32 | The session starts with an empty history, nothing sent, nobody called and an empty roster field |
| Session.DefaultMessage | streamlit_app.py:74-80 | Every trigger has a non-empty default message, and only the chat trigger, which has no canned message, falls back to `(No message)`; the begin message holds the file's characters U+201A U+00C4 U+00F4 where an apostrophe was meant |
| Session.ResolveMessage | streamlit_app.py:74-80 | The recorded message is the typed one when there is one, otherwise the trigger's default; it is never empty |
| Session.Dispatch | streamlit_app.py:60-198 | A refused roster leaves the state as it was; otherwise exactly one entry is appended after the old history, with the resolved message and either the stripped reply or `Error: ` and the exception text, and the called set is the picker's |
| Session.Record | streamlit_app.py:195-198 | The entry keeps the message sent; it is an `ERROR` entry iff the call raised, holding `Error: ` followed by the exception text; otherwise a `Group` entry whose reply is the completion's text with the white space at both ends removed, and is that text itself when it had none |
| Session.PressAppends | streamlit_app.py:189-198 | A button press on a roster forming a group appends exactly the entry of the button's default message and the completion |
| Session.Press | streamlit_app.py:214-218 | A button press records the button's default message and advances the called set as the picker does, or changes nothing when the roster is refused |
| Session.ChatSubmit | streamlit_app.py:204-206 | Nothing happens unless the form was submitted with a non-empty message different from the last one sent; a sent message becomes the last sent and, on a roster forming a group, is appended as typed with the completion's entry while the called set advances as the picker does |
| Session.RepeatIgnored | streamlit_app.py:204-206 | Submitting the message just sent again changes nothing |
| Session.Render | streamlit_app.py:222 | The rendered list has every entry, with position i showing the i-th newest |
| Session.RenderAppend | streamlit_app.py:222 | A newly appended entry is shown first, above the earlier entries in their order |
| Session.RenderTwice | streamlit_app.py:222 | Reading the rendered list back to front gives the history |
| Session.Step | streamlit_app.py:200-218 | One rerun of the page with one user action keeps the old history as a prefix and appends at most one entry; editing the roster field changes only that field |
| Session.Run | streamlit_app.py:196-218 | Over any sequence of actions, earlier entries never change and at most one entry per action is appended |
| Scenarios.TypedFirstPick | streamlit_app.py:11-22 | For a roster typed as `"Alice, Bob, Cara"`, the first pick calls two different names on it and records exactly those |
| Scenarios.TypedExhaustedReshuffles | streamlit_app.py:15-21 | For a typed roster whose names have all been called, the next pick starts a new rotation with the two names it calls |
| Scenarios.LoneStudentRejected | streamlit_app.py:12-14 | A roster of one name is refused with the group warning and the called set unchanged |
| Scenarios.TypedTwiceCalledTwice | streamlit_app.py:12-21 | A roster with one name typed twice calls that name for both questions |
| Scenarios.ErrorRecorded | streamlit_app.py:197-198 | A failed completion records an `ERROR` entry with the button's default message and `Error: ` followed by the exception text |
| Scenarios.ReplyAfterError | streamlit_app.py:189-198 | A failed completion followed by a second press appends the `ERROR` entry and then the second press's reply without the surrounding white space: the failure does not disturb later dispatches |

## Left out

- The system prompts (lines 68-72 and 82-187) and the worksheet fields `q1`-`q5` they embed. They are text handed to the completion service and decide nothing in the model.
- The OpenAI client, its API key, model name and temperature. The completion call is an input: a reply text or the text of the exception it raised.
- A reply whose content is `None`. In Python, `.strip()` then raises inside the `try`, so the run ends as an `ERROR` entry. The model covers it as a `Raised` outcome with that exception's text.
- The Streamlit layout and widgets, the page configuration and the Markdown formatting of the rendered entries. The display of the group warning (`st.warning`) is left out too, because it changes no state.
- Randomness: `random.sample` is modelled by explicit rolls, each picking one of the entries not yet taken. Every possible sample is reachable, but no probability distribution is modelled.
- The `count` parameter is a `nat`. A negative count would make `random.sample` raise, and the page only ever passes 2.
- The roster field's widget binding: a change of the field is the `Rename` event of `Session.Step`.

=== FILE: roster.dfy ===
/**
  The roster text field: a comma-separated list of student names, parsed as
  `[name.strip() for name in text.split(",") if name.strip()]`.
  Entries are kept in the order typed, and repeated names are kept too.
 */
module Roster {
  import opened Text

  /** What a parsed roster entry looks like: non-empty, no white space at
      either end, no comma inside. */
  predicate IsName(n: string) {
    n != "" && Stripped(n) && ',' !in n
  }

  /** Every piece stripped, position by position. */
  function StripAll(pieces: seq<string>): (stripped: seq<string>)
    ensures |stripped| == |pieces|
    ensures forall i :: 0 <= i < |pieces| ==> stripped[i] == Strip(pieces[i])
  {
    if |pieces| == 0 then [] else [Strip(pieces[0])] + StripAll(pieces[1..])
  }

  /** Strips every piece and drops the ones that strip to nothing. */
  function Clean(pieces: seq<string>): (names: seq<string>)
    ensures |names| <= |pieces|
    ensures forall i :: 0 <= i < |names| ==> names[i] != "" && Stripped(names[i])
  {
    if |pieces| == 0 then
      []
    else
      var n := Strip(pieces[0]);
      var rest := Clean(pieces[1..]);
      if n == "" then rest else [n] + rest
  }

  /** Cleaning keeps exactly the stripped pieces that are not empty. */
  lemma {:induction false} CleanMembers(pieces: seq<string>)
    ensures forall x :: x in Clean(pieces) <==> x != "" && x in StripAll(pieces)
  {
    if |pieces| > 0 {
      CleanMembers(pieces[1..]);
      assert StripAll(pieces) == [Strip(pieces[0])] + StripAll(pieces[1..]);
    }
  }

  /** Cleaning keeps every stripped piece as often as it occurs, except
      the empty one. */
  lemma {:induction false} CleanCounts(pieces: seq<string>)
    ensures multiset(Clean(pieces)) == multiset(StripAll(pieces))["" := 0]
  {
    if |pieces| > 0 {
      CleanCounts(pieces[1..]);
      CleanCountsStep(pieces);
    }
  }

  /** The inductive step of CleanCounts: the first piece is counted iff it
      does not strip to nothing. */
  lemma CleanCountsStep(pieces: seq<string>)
    requires |pieces| > 0
    requires multiset(Clean(pieces[1..])) == multiset(StripAll(pieces[1..]))["" := 0]
    ensures multiset(Clean(pieces)) == multiset(StripAll(pieces))["" := 0]
  {
    var n := Strip(pieces[0]);
    var kept := if n == "" then [] else [n];
    CleanHead(pieces);
    StripAllHead(pieces);
    DropEmpty(n, kept, Clean(pieces[1..]), StripAll(pieces[1..]));
  }

  lemma CleanHead(pieces: seq<string>)
    requires |pieces| > 0
    ensures Clean(pieces)
            == (if Strip(pieces[0]) == "" then [] else [Strip(pieces[0])]) + Clean(pieces[1..])
  {
  }

  lemma StripAllHead(pieces: seq<string>)
    requires |pieces| > 0
    ensures StripAll(pieces) == [Strip(pieces[0])] + StripAll(pieces[1..])
  {
  }

  /** Counting with the empty string dropped, one element at a time. */
  lemma DropEmpty(n: string, kept: seq<string>, cleaned: seq<string>, stripped: seq<string>)
    requires kept == if n == "" then [] else [n]
    requires multiset(cleaned) == multiset(stripped)["" := 0]
    ensures multiset(kept + cleaned) == multiset([n] + stripped)["" := 0]
  {
    assert multiset([n] + stripped) == multiset{n} + multiset(stripped);
    assert multiset(kept + cleaned) == multiset(kept) + multiset(cleaned);
  }

  /** Cleaning works piece by piece, in order. */
  lemma {:induction false} CleanAppend(a: seq<string>, b: seq<string>)
    ensures Clean(a + b) == Clean(a) + Clean(b)
  {
    if |a| == 0 {
      assert a + b == b;
    } else {
      assert (a + b)[0] == a[0];
      assert (a + b)[1..] == a[1..] + b;
      CleanAppend(a[1..], b);
    }
  }

  /** The roster as the picker sees it. Every entry is a name; which ones
      they are is stated by ParseMembers and the round trips below. */
  function ParseRoster(text: string): (names: seq<string>)
    ensures forall i :: 0 <= i < |names| ==> IsName(names[i])
  {
    var pieces := Split(text);
    CleanCommaFree(pieces);
    Clean(pieces)
  }

  /** The roster holds exactly the stripped comma-separated pieces that are
      not empty. */
  lemma ParseMembers(text: string)
    ensures forall x :: x in ParseRoster(text) <==> x != "" && x in StripAll(Split(text))
  {
    CleanMembers(Split(text));
  }

  /** The roster holds every non-empty stripped piece of the text exactly
      as often as the text has it. */
  lemma ParseCounts(text: string)
    ensures multiset(ParseRoster(text)) == multiset(StripAll(Split(text)))["" := 0]
  {
    CleanCounts(Split(text));
  }

  /** Two fields joined by a comma parse to the entries of the first
      followed by the entries of the second: the parse goes piece by piece,
      in order. */
  lemma ParseConcat(a: string, b: string)
    ensures ParseRoster(a + "," + b) == ParseRoster(a) + ParseRoster(b)
  {
    SplitConcat(a, b);
    CleanAppend(Split(a), Split(b));
  }

  /** A single piece parses to itself stripped, or to nothing when it is
      blank. With ParseConcat this pins down the roster of every field. */
  lemma ParsePiece(p: string)
    requires ',' !in p
    ensures ParseRoster(p) == if Strip(p) == "" then [] else [Strip(p)]
  {
    SplitCommaFree(p);
    assert [p][1..] == [];
  }

  /** Stripping never introduces a comma, so comma-free pieces clean to names. */
  lemma {:induction false} CleanCommaFree(pieces: seq<string>)
    requires forall i :: 0 <= i < |pieces| ==> ',' !in pieces[i]
    ensures forall i :: 0 <= i < |Clean(pieces)| ==> IsName(Clean(pieces)[i])
  {
    if |pieces| > 0 {
      CleanCommaFree(pieces[1..]);
      StripNoChar(pieces[0], ',');
    }
  }

  /** Cleaning a list that already holds only names changes nothing. */
  lemma {:induction false} CleanNames(names: seq<string>)
    requires forall i :: 0 <= i < |names| ==> IsName(names[i])
    ensures Clean(names) == names
  {
    if |names| > 0 {
      CleanNames(names[1..]);
      assert names == [names[0]] + names[1..];
    }
  }

  /** An empty roster field holds no names. */
  lemma ParseEmpty()
    ensures ParseRoster("") == []
  {
    assert Split("") == [""];
    assert Strip("") == "";
    assert Clean([""]) == Clean([]);
  }

  /** Round trip: a roster typed as names joined by commas parses back to
      exactly those names, in the same order, duplicates included. */
  lemma ParseJoin(names: seq<string>)
    requires forall i :: 0 <= i < |names| ==> IsName(names[i])
    ensures ParseRoster(Join(names)) == names
  {
    if |names| == 0 {
      ParseEmpty();
    } else {
      ParseJoinedNames(names);
      CleanNames(names);
    }
  }

  /** Names joined by commas parse to the names cleaned once more. */
  lemma ParseJoinedNames(names: seq<string>)
    requires forall i :: 0 <= i < |names| ==> IsName(names[i])
    requires |names| > 0
    ensures ParseRoster(Join(names)) == Clean(names)
  {
    assert forall i :: 0 <= i < |names| ==> ',' !in names[i];
    ParseJoinedPieces(names);
  }

  /** Parsing a roster typed with any pieces between commas keeps the
      stripped, non-empty pieces in order. */
  lemma ParseJoinedPieces(pieces: seq<string>)
    requires |pieces| >= 1
    requires forall i :: 0 <= i < |pieces| ==> ',' !in pieces[i]
    ensures ParseRoster(Join(pieces)) == Clean(pieces)
  {
    SplitJoin(pieces);
  }

  /** Each name with the space typed after a comma in front of it. */
  function Spaced(names: seq<string>): (pieces: seq<string>)
    ensures |pieces| == |names|
  {
    if |names| == 0 then [] else [" " + names[0]] + Spaced(names[1..])
  }

  /** `", ".join(names)`: a roster typed the usual way, `"Alice, Bob, Cara"`. */
  function Typed(names: seq<string>): string {
    if |names| == 0 then "" else Join([names[0]] + Spaced(names[1..]))
  }

  /** A space in front of a name brings no comma with it. */
  lemma {:induction false} SpacedCommaFree(names: seq<string>)
    requires forall i :: 0 <= i < |names| ==> IsName(names[i])
    ensures forall i :: 0 <= i < |names| ==> ',' !in Spaced(names)[i]
  {
    if |names| > 0 {
      SpacedCommaFree(names[1..]);
      assert Spaced(names)[1..] == Spaced(names[1..]);
    }
  }

  /** A piece that strips to something contributes exactly that, in front. */
  lemma CleanCons(piece: string, pieces: seq<string>)
    requires Strip(piece) != ""
    ensures Clean([piece] + pieces) == [Strip(piece)] + Clean(pieces)
  {
    assert ([piece] + pieces)[1..] == pieces;
  }

  /** The space in front of one name is stripped away again. */
  lemma CleanSpacedStep(n: string, rest: seq<string>)
    requires n != "" && Stripped(n)
    ensures Clean(Spaced([n] + rest)) == [n] + Clean(Spaced(rest))
  {
    assert ([n] + rest)[1..] == rest;
    StripOneSpace(n);
    CleanCons(" " + n, Spaced(rest));
  }

  /** The space after a comma is stripped away again. */
  lemma {:induction false} CleanSpaced(names: seq<string>)
    requires forall i :: 0 <= i < |names| ==> IsName(names[i])
    ensures Clean(Spaced(names)) == names
  {
    if |names| > 0 {
      var n, rest := names[0], names[1..];
      assert names == [n] + rest;
      CleanSpacedStep(n, rest);
      CleanSpaced(rest);
    }
  }

  /** Round trip for the usual way of typing a roster: names separated by a
      comma and a space parse back to exactly those names, in order. */
  lemma ParseTyped(names: seq<string>)
    requires forall i :: 0 <= i < |names| ==> IsName(names[i])
    ensures ParseRoster(Typed(names)) == names
  {
    if |names| == 0 {
      ParseEmpty();
    } else {
      var n, rest := names[0], names[1..];
      TypedPieces(n, rest);
      CleanTyped(n, rest);
      assert names == [n] + rest;
    }
  }

  /** A roster typed the usual way parses like its pieces: the first name,
      then every other name behind a space. */
  lemma TypedPieces(n: string, rest: seq<string>)
    requires IsName(n)
    requires forall i :: 0 <= i < |rest| ==> IsName(rest[i])
    ensures ParseRoster(Typed([n] + rest)) == Clean([n] + Spaced(rest))
  {
    var pieces := [n] + Spaced(rest);
    assert Typed([n] + rest) == Join(pieces) by {
      assert ([n] + rest)[0] == n && ([n] + rest)[1..] == rest;
    }
    SpacedCommaFree(rest);
    assert forall i :: 0 <= i < |pieces| ==> ',' !in pieces[i];
    ParseJoinedPieces(pieces);
  }

  /** Cleaning those pieces gives back the names. */
  lemma CleanTyped(n: string, rest: seq<string>)
    requires IsName(n)
    requires forall i :: 0 <= i < |rest| ==> IsName(rest[i])
    ensures Clean([n] + Spaced(rest)) == [n] + rest
  {
    assert Strip(n) == n;
    CleanCons(n, Spaced(rest));
    CleanSpaced(rest);
  }
}

=== FILE: rotation.dfy ===
/**
  The name-rotation picker, `pick_random_names(name_string, used_names, count)`:
  parse the roster, refuse a roster that is too small for a group, take the
  names not yet called in this rotation, start a new rotation when too few
  are left, sample `count` names and record them as called.

  The Python function mutates `used_names` in place; here the updated set is
  part of the result.
 */
module Rotation {
  import opened Text
  import opened Roster
  import opened Sampling

  /** The warning returned when the roster cannot form a group. */
  const GroupMessage := "This activity is meant for a group. Try to find more people to work with."

  datatype PickOutcome =
    | Chosen(names: seq<string>, used: set<string>, reshuffled: bool)
    | Rejected(message: string, used: set<string>)

  /** `[n for n in names if n not in used]`: every occurrence of a name not
      yet called, and nothing else. */
  function Unused(names: seq<string>, used: set<string>): (available: seq<string>)
    ensures |available| <= |names|
    ensures forall n :: multiset(available)[n] == if n in used then 0 else multiset(names)[n]
  {
    if |names| == 0 then
      []
    else
      var rest := Unused(names[1..], used);
      assert names == [names[0]] + names[1..];
      if names[0] in used then rest else [names[0]] + rest
  }

  /** At the start of a rotation every roster entry is available. */
  lemma {:induction false} UnusedWhenNoneCalled(names: seq<string>, used: set<string>)
    requires forall i :: 0 <= i < |names| ==> names[i] !in used
    ensures Unused(names, used) == names
  {
    if |names| > 0 {
      UnusedWhenNoneCalled(names[1..], used);
      assert names == [names[0]] + names[1..];
    }
  }

  /** Once everyone on the roster has been called, nobody is available. */
  lemma {:induction false} UnusedWhenAllCalled(names: seq<string>, used: set<string>)
    requires forall i :: 0 <= i < |names| ==> names[i] in used
    ensures Unused(names, used) == []
  {
    if |names| > 0 {
      UnusedWhenAllCalled(names[1..], used);
    }
  }

  /** The candidates `random.sample` draws from, and whether the rotation
      starts over. A roster of at least `count` entries always leaves at
      least `count` candidates, so the draw never raises. */
  function Candidates(roster: seq<string>, used: set<string>, count: nat): (c: (seq<string>, bool))
    ensures c.1 <==> |Unused(roster, used)| < count
    ensures c.1 ==> c.0 == roster
    ensures !c.1 ==> forall n :: multiset(c.0)[n] == if n in used then 0 else multiset(roster)[n]
    ensures multiset(c.0) <= multiset(roster)
    ensures !c.1 ==> forall n :: n in c.0 ==> n !in used
    ensures |roster| >= count ==> |c.0| >= count
  {
    var available := Unused(roster, used);
    if |available| < count then (roster, true) else (available, false)
  }

  /** The picker once the roster has been parsed. `rolls` is the random
      source behind `random.sample`; it is consulted only when a draw
      happens. */
  function PickFrom(roster: seq<string>, used: set<string>, count: nat, rolls: seq<nat>): (r: PickOutcome)
    requires |rolls| == count
    ensures r.Rejected? <==> |roster| < count
    ensures r.Rejected? ==> r.message == GroupMessage && r.used == used
    ensures r.Chosen? ==> |r.names| == count
    ensures r.Chosen? ==> (r.reshuffled <==> |Unused(roster, used)| < count)
    ensures r.Chosen? ==> multiset(r.names) <= multiset(roster)
    ensures r.Chosen? && !r.reshuffled ==> forall n :: n in r.names ==> n !in used
    ensures r.Chosen? ==> r.used == (if r.reshuffled then {} else used) + (set n | n in r.names)
  {
    if |roster| < count then
      Rejected(GroupMessage, used)
    else
      var (pool, reshuffled) := Candidates(roster, used, count);
      var chosen := Draw(pool, rolls);
      assert forall n :: n in chosen ==> n in multiset(pool);
      var base := if reshuffled then {} else used;
      Chosen(chosen, base + (set n | n in chosen), reshuffled)
  }

  /** One call of the picker on the text of the roster field: refused
      exactly when the field holds fewer than `count` names; otherwise the
      names called are entries of the parsed field, taken from distinct
      positions, and so are proper names; a new rotation starts exactly
      when too few of them are uncalled, and the called set records them. */
  function PickNames(text: string, used: set<string>, count: nat, rolls: seq<nat>): (r: PickOutcome)
    requires |rolls| == count
    ensures r.Rejected? <==> |ParseRoster(text)| < count
    ensures r.Rejected? ==> r == Rejected(GroupMessage, used)
    ensures r.Chosen? ==> |r.names| == count && multiset(r.names) <= multiset(ParseRoster(text))
    ensures r.Chosen? ==> forall i :: 0 <= i < |r.names| ==> IsName(r.names[i])
    ensures r.Chosen? ==> (r.reshuffled <==> |Unused(ParseRoster(text), used)| < count)
    ensures r.Chosen? && !r.reshuffled ==> forall n :: n in r.names ==> n !in used
    ensures r.Chosen? ==> r.used == (if r.reshuffled then {} else used) + (set n | n in r.names)
  {
    var roster := ParseRoster(text);
    var r := PickFrom(roster, used, count, rolls);
    if r.Chosen? then SubBagNames(r.names, roster); r else r
  }

  /** Entries drawn from a list of names are names. */
  lemma SubBagNames(names: seq<string>, roster: seq<string>)
    requires multiset(names) <= multiset(roster)
    requires forall i :: 0 <= i < |roster| ==> IsName(roster[i])
    ensures forall i :: 0 <= i < |names| ==> IsName(names[i])
  {
    forall i | 0 <= i < |names|
      ensures IsName(names[i])
    {
      assert names[i] in multiset(roster);
    }
  }

  /** Fairness of a rotation: on a roster without repeated names, every pick
      that does not start a new rotation calls `count` names that had not
      been called, so the called set grows by exactly `count`; a pick that
      starts a new rotation leaves exactly the `count` names just called. */
  lemma RotationProgress(roster: seq<string>, used: set<string>, count: nat, rolls: seq<nat>)
    requires |rolls| == count
    requires Distinct(roster)
    requires PickFrom(roster, used, count, rolls).Chosen?
    ensures var r := PickFrom(roster, used, count, rolls);
      |r.used| == (if r.reshuffled then 0 else |used|) + count
  {
    var r := PickFrom(roster, used, count, rolls);
    DrawnFromDistinct(roster, r.names);
    DistinctSetSize(r.names);
    var called := set n | n in r.names;
    if !r.reshuffled {
      assert used !! called;
    }
  }

  /** The picker can return any sample `random.sample` could: any `count`
      roster entries taken from distinct positions, all of them not yet
      called unless the rotation starts over. */
  lemma PickReachesEverySample(roster: seq<string>, used: set<string>, count: nat, sample: seq<string>)
    requires |roster| >= count && |sample| == count
    requires multiset(sample) <= multiset(roster)
    requires |Unused(roster, used)| >= count ==> forall n :: n in sample ==> n !in used
    ensures exists rolls: seq<nat> :: |rolls| == count && PickFrom(roster, used, count, rolls).Chosen?
              && PickFrom(roster, used, count, rolls).names == sample
  {
    var pool := Candidates(roster, used, count).0;
    assert multiset(sample) <= multiset(pool) by {
      forall n ensures multiset(sample)[n] <= multiset(pool)[n] {
        if n in used && multiset(sample)[n] > 0 {
          assert n in sample;
        }
      }
    }
    DrawRollsFor(pool, sample);
    var rolls := RollsFor(pool, sample);
    assert PickFrom(roster, used, count, rolls).names == sample;
  }

  /** With the roster left as it is, the called set never names anyone
      outside it. */
  lemma UsedStaysInRoster(roster: seq<string>, used: set<string>, count: nat, rolls: seq<nat>)
    requires |rolls| == count
    requires forall n :: n in used ==> n in roster
    ensures forall n :: n in PickFrom(roster, used, count, rolls).used ==> n in roster
  {
    var r := PickFrom(roster, used, count, rolls);
    if r.Chosen? {
      forall n | n in r.names ensures n in roster {
        assert n in multiset(r.names);
      }
    }
  }

  /** Two names drawn from a roster without repeated names are two
      different entries of it, and the set of them has both and no more. */
  lemma CalledPair(roster: seq<string>, names: seq<string>, called: set<string>)
    requires Distinct(roster)
    requires |names| == 2 && multiset(names) <= multiset(roster)
    requires called == set n | n in names
    ensures names[0] != names[1]
    ensures called == {names[0], names[1]}
    ensures forall n :: n in called ==> n in roster
  {
    DrawnFromDistinct(roster, names);
    DistinctAt(names, 0, 1);
    assert names == [names[0], names[1]];
    assert names[0] in multiset(names) && names[1] in multiset(names);
  }

  /** The first pick of a session, from a roster of at least two different
      names: two different students are called, and they are the only ones
      recorded. */
  lemma FirstPickOfSession(roster: seq<string>, rolls: seq<nat>)
    requires Distinct(roster)
    requires |roster| >= 2 && |rolls| == 2
    ensures var r := PickFrom(roster, {}, 2, rolls);
      && r.Chosen? && !r.reshuffled
      && r.names[0] != r.names[1]
      && r.used == {r.names[0], r.names[1]}
      && forall n :: n in r.used ==> n in roster
  {
    FirstPickChosen(roster, rolls);
    var r := PickFrom(roster, {}, 2, rolls);
    CalledPair(roster, r.names, r.used);
  }

  /** The first pick of a session from a roster of two or more entries: two
      entries, no new rotation, and only they are recorded. */
  lemma FirstPickChosen(roster: seq<string>, rolls: seq<nat>)
    requires |roster| >= 2 && |rolls| == 2
    ensures var r := PickFrom(roster, {}, 2, rolls);
      && r.Chosen? && !r.reshuffled && |r.names| == 2
      && multiset(r.names) <= multiset(roster)
      && r.used == set n | n in r.names
  {
    UnusedWhenNoneCalled(roster, {});
  }

  /** Once every student has been called, the next pick starts a new
      rotation instead of failing, and the called set restarts with the two
      just called. */
  lemma ExhaustedRosterReshuffles(roster: seq<string>, used: set<string>, rolls: seq<nat>)
    requires Distinct(roster)
    requires forall i :: 0 <= i < |roster| ==> roster[i] in used
    requires |roster| >= 2 && |rolls| == 2
    ensures var r := PickFrom(roster, used, 2, rolls);
      && r.Chosen? && r.reshuffled
      && r.names[0] != r.names[1]
      && r.used == {r.names[0], r.names[1]}
  {
    UnusedWhenAllCalled(roster, used);
    var r := PickFrom(roster, used, 2, rolls);
    CalledPair(roster, r.names, r.used);
  }

  /** Two names drawn from a roster that repeats one name are that name twice. */
  lemma OnlyOneName(roster: seq<string>, a: string, names: seq<string>)
    requires forall i :: 0 <= i < |roster| ==> roster[i] == a
    requires |names| == 2 && multiset(names) <= multiset(roster)
    ensures names == [a, a] && (set n | n in names) == {a}
  {
    forall n | n in names ensures n == a {
      assert n in multiset(names);
    }
    assert names == [names[0], names[1]];
  }

  /** The group-size check counts roster entries, not different names: a
      roster that is one name typed twice passes it, and both questions go
      to that student. */
  lemma RepeatedNameCalledTwice(roster: seq<string>, a: string, used: set<string>, rolls: seq<nat>)
    requires |roster| >= 2 && forall i :: 0 <= i < |roster| ==> roster[i] == a
    requires |rolls| == 2
    ensures var r := PickFrom(roster, used, 2, rolls);
      && r.Chosen? && r.names == [a, a]
      && (r.reshuffled <==> a in used)
      && r.used == (if a in used then {a} else used + {a})
  {
    if a in used {
      UnusedWhenAllCalled(roster, used);
    } else {
      UnusedWhenNoneCalled(roster, used);
    }
    var r := PickFrom(roster, used, 2, rolls);
    OnlyOneName(roster, a, r.names);
  }
}

=== FILE: sampling.dfy ===
/**
  `random.sample(population, k)`: k entries taken from k distinct positions
  of the population. The randomness is an explicit argument: a sequence of
  rolls, the i-th of which picks one of the entries not taken yet (a roll
  past the end takes the last one). Every sample `random.sample` can return is
  reachable by some rolls (DrawReachesEverySample), and no roll sequence
  yields anything else (Draw's contract).
 */
module Sampling {

  /** No value occurs twice. */
  ghost predicate Distinct<T(!new)>(s: seq<T>) {
    forall x :: multiset(s)[x] <= 1
  }

  /** Selection without replacement: `|rolls|` entries of `pool`, no
      position taken twice. Its precondition is the one `random.sample`
      raises `ValueError` for: never ask for more entries than there are. */
  function Draw<T>(pool: seq<T>, rolls: seq<nat>): (drawn: seq<T>)
    requires |rolls| <= |pool|
    ensures |drawn| == |rolls|
    ensures multiset(drawn) <= multiset(pool)
    decreases |rolls|
  {
    if |rolls| == 0 then
      []
    else
      var k := if rolls[0] < |pool| then rolls[0] else |pool| - 1;
      var rest := pool[..k] + pool[k + 1..];
      assert pool == pool[..k] + [pool[k]] + pool[k + 1..];
      [pool[k]] + Draw(rest, rolls[1..])
  }

  /** The first position holding `x`. */
  function IndexOf<T(==)>(s: seq<T>, x: T): (i: nat)
    requires x in s
    ensures i < |s| && s[i] == x
  {
    if s[0] == x then 0 else 1 + IndexOf(s[1..], x)
  }

  /** The rolls that make Draw produce `sample`. */
  function RollsFor<T(==)>(pool: seq<T>, sample: seq<T>): (rolls: seq<nat>)
    requires multiset(sample) <= multiset(pool)
    ensures |rolls| == |sample| <= |pool|
    decreases |sample|
  {
    if |sample| == 0 then
      []
    else
      assert sample[0] in multiset(sample);
      var k := IndexOf(pool, sample[0]);
      TakeOne(pool, sample, k);
      [k] + RollsFor(pool[..k] + pool[k + 1..], sample[1..])
  }

  /** Taking the first sampled value out of the pool keeps the rest of the
      sample inside what is left. */
  lemma TakeOne<T>(pool: seq<T>, sample: seq<T>, k: nat)
    requires multiset(sample) <= multiset(pool)
    requires |sample| > 0 && k < |pool| && pool[k] == sample[0]
    ensures multiset(sample[1..]) <= multiset(pool[..k] + pool[k + 1..])
  {
    var rest := pool[..k] + pool[k + 1..];
    assert multiset(pool) == multiset(rest) + multiset{pool[k]} by {
      assert pool == pool[..k] + [pool[k]] + pool[k + 1..];
    }
    assert multiset(sample) == multiset(sample[1..]) + multiset{sample[0]} by {
      assert sample == [sample[0]] + sample[1..];
    }
    CancelOne(multiset(sample[1..]), multiset(rest), sample[0]);
  }

  /** Taking the same value away from both sides keeps an inclusion. */
  lemma CancelOne<T>(a: multiset<T>, b: multiset<T>, x: T)
    requires a + multiset{x} <= b + multiset{x}
    ensures a <= b
  {
    forall y ensures a[y] <= b[y] {
      assert (a + multiset{x})[y] <= (b + multiset{x})[y];
    }
  }

  /** One step of the draw: a roll below the pool size takes that position. */
  lemma DrawStep<T>(pool: seq<T>, k: nat, tail: seq<nat>)
    requires k < |pool| && |tail| < |pool|
    ensures Draw(pool, [k] + tail) == [pool[k]] + Draw(pool[..k] + pool[k + 1..], tail)
  {
    var rolls := [k] + tail;
    assert rolls[0] == k && rolls[1..] == tail;
  }

  /** RollsFor is right: those rolls draw exactly the sample. */
  lemma {:induction false} DrawRollsFor<T>(pool: seq<T>, sample: seq<T>)
    requires multiset(sample) <= multiset(pool)
    ensures Draw(pool, RollsFor(pool, sample)) == sample
    decreases |sample|
  {
    if |sample| > 0 {
      assert sample[0] in multiset(sample);
      var k := IndexOf(pool, sample[0]);
      var rest := pool[..k] + pool[k + 1..];
      DrawRollsForStep(pool, sample, k);
      DrawRollsFor(rest, sample[1..]);
      assert sample == [sample[0]] + sample[1..];
    }
  }

  /** The first roll RollsFor picks takes the first sampled value. */
  lemma DrawRollsForStep<T>(pool: seq<T>, sample: seq<T>, k: nat)
    requires multiset(sample) <= multiset(pool)
    requires |sample| > 0 && k < |pool| && pool[k] == sample[0] && k == IndexOf(pool, sample[0])
    ensures multiset(sample[1..]) <= multiset(pool[..k] + pool[k + 1..])
    ensures Draw(pool, RollsFor(pool, sample))
      == [sample[0]] + Draw(pool[..k] + pool[k + 1..], RollsFor(pool[..k] + pool[k + 1..], sample[1..]))
  {
    var rest := pool[..k] + pool[k + 1..];
    TakeOne(pool, sample, k);
    var tail := RollsFor(rest, sample[1..]);
    assert RollsFor(pool, sample) == [k] + tail by {
      assert sample[0] in multiset(sample);
    }
    DrawStep(pool, k, tail);
  }

  /** Nothing `random.sample` may return is left out of the model: every
      arrangement of entries taken from distinct positions is drawn by some
      rolls. */
  lemma DrawReachesEverySample<T>(pool: seq<T>, sample: seq<T>)
    requires multiset(sample) <= multiset(pool)
    ensures exists rolls: seq<nat> :: |rolls| == |sample| <= |pool| && Draw(pool, rolls) == sample
  {
    DrawRollsFor(pool, sample);
    var rolls := RollsFor(pool, sample);
    assert |rolls| == |sample| <= |pool| && Draw(pool, rolls) == sample;
  }

  /** Values taken from a repetition-free pool are themselves distinct. */
  lemma DrawnFromDistinct<T(!new)>(pool: seq<T>, drawn: seq<T>)
    requires Distinct(pool) && multiset(drawn) <= multiset(pool)
    ensures Distinct(drawn)
  {
    forall x ensures multiset(drawn)[x] <= 1 {
      assert multiset(drawn)[x] <= multiset(pool)[x];
    }
  }

  /** In a repetition-free sequence, different positions hold different values. */
  lemma DistinctAt<T(!new)>(s: seq<T>, i: nat, j: nat)
    requires Distinct(s) && i < j < |s|
    ensures s[i] != s[j]
  {
    var front, back := s[..j], s[j..];
    assert s == front + back;
    assert s[i] == front[i] && s[j] == back[0];
    assert multiset(s)[s[j]] == multiset(front)[s[j]] + multiset(back)[s[j]];
    assert s[i] in multiset(front) && s[j] in multiset(back);
  }

  /** A repetition-free sequence has as many distinct values as entries. */
  lemma {:induction false} DistinctSetSize<T(!new)>(s: seq<T>)
    requires Distinct(s)
    ensures |set x | x in s| == |s|
  {
    if |s| > 0 {
      var t := s[1..];
      assert s == [s[0]] + t;
      assert multiset(s) == multiset{s[0]} + multiset(t);
      assert Distinct(t) by {
        forall x ensures multiset(t)[x] <= 1 {
          assert multiset(t)[x] <= multiset(s)[x];
        }
      }
      DistinctSetSize(t);
      assert s[0] !in t by {
        assert multiset(s)[s[0]] == 1 + multiset(t)[s[0]];
      }
      assert (set x | x in s) == {s[0]} + (set x | x in t);
    }
  }
}

=== FILE: scenarios.dfy ===
/**
  Worked examples of the picker and the chat log, stated for rosters typed
  the usual way (`"Alice, Bob, Cara"`, see Roster.Typed): the first pick,
  the reshuffle of an exhausted roster, the lone student, the name typed
  twice, and a failed completion followed by a good one.
 */
module Scenarios {
  import opened Text
  import opened Roster
  import opened Sampling
  import opened Rotation
  import opened Session

  /** A roster of different names typed with commas and spaces: the first
      pick calls two different students of it and records exactly those. */
  lemma TypedFirstPick(names: seq<string>, rolls: seq<nat>)
    requires forall i :: 0 <= i < |names| ==> IsName(names[i])
    requires Distinct(names)
    requires |names| >= 2 && |rolls| == 2
    ensures var r := PickNames(Typed(names), {}, 2, rolls);
      && r.Chosen? && !r.reshuffled
      && r.names[0] != r.names[1] && r.names[0] in names && r.names[1] in names
      && r.used == {r.names[0], r.names[1]}
  {
    ParseTyped(names);
    FirstPickOfSession(names, rolls);
  }

  /** When everyone on a typed roster has been called, the next pick starts
      over with the two names it calls. */
  lemma TypedExhaustedReshuffles(names: seq<string>, used: set<string>, rolls: seq<nat>)
    requires forall i :: 0 <= i < |names| ==> IsName(names[i]) && names[i] in used
    requires Distinct(names)
    requires |names| >= 2 && |rolls| == 2
    ensures var r := PickNames(Typed(names), used, 2, rolls);
      r.Chosen? && r.reshuffled && r.used == {r.names[0], r.names[1]}
  {
    ParseTyped(names);
    ExhaustedRosterReshuffles(names, used, rolls);
  }

  /** A single name is not a group: nothing is picked and nothing recorded. */
  lemma LoneStudentRejected(a: string, used: set<string>, rolls: seq<nat>)
    requires IsName(a)
    requires |rolls| == 2
    ensures PickNames(Typed([a]), used, 2, rolls) == Rejected(GroupMessage, used)
  {
    ParseTyped([a]);
  }

  /** `"Alice, Alice"` passes the group-size check, and Alice answers both
      questions. */
  lemma TypedTwiceCalledTwice(a: string, used: set<string>, rolls: seq<nat>)
    requires IsName(a)
    requires |rolls| == 2
    ensures var r := PickNames(Typed([a, a]), used, 2, rolls);
      r.Chosen? && r.names == [a, a]
  {
    ParseTyped([a, a]);
    RepeatedNameCalledTwice([a, a], a, used, rolls);
  }

  /** A failed completion is recorded as an ERROR entry carrying the
      exception text, after the button's default message. */
  lemma ErrorRecorded(s: State, rolls: seq<nat>, detail: string)
    requires !TooFewNames(s)
    requires |rolls| == 2
    ensures Press(s, Experiment, rolls, Raised(detail)).history
      == s.history + [Entry(ErrorSpeaker, DefaultMessage(Experiment), "Error: " + detail)]
  {
    PressAppends(s, Experiment, rolls, Raised(detail));
  }

  /** A failed completion does not disturb the session: after its ERROR
      entry the next press is answered as usual, and its reply, padded with
      white space, is appended stripped. */
  lemma ReplyAfterError(s: State, rolls: seq<nat>, detail: string, rolls2: seq<nat>,
                        lead: string, reply: string, trail: string)
    requires !TooFewNames(s)
    requires |rolls| == 2 && |rolls2| == 2
    requires AllSpace(lead) && Stripped(reply) && AllSpace(trail)
    ensures var failed := Press(s, Experiment, rolls, Raised(detail));
      Press(failed, Begin, rolls2, Answered(lead + reply + trail)).history
      == s.history + [Entry(ErrorSpeaker, DefaultMessage(Experiment), "Error: " + detail),
                      Entry(GroupSpeaker, DefaultMessage(Begin), reply)]
  {
    var e1 := Entry(ErrorSpeaker, DefaultMessage(Experiment), "Error: " + detail);
    var failed := Press(s, Experiment, rolls, Raised(detail));
    PressAppends(s, Experiment, rolls, Raised(detail));
    AnsweredAfter(s, failed, e1, rolls2, lead, reply, trail);
  }

  /** The answered press that follows one entry appended to `s`. */
  lemma AnsweredAfter(s: State, failed: State, e1: Entry, rolls2: seq<nat>,
                      lead: string, reply: string, trail: string)
    requires failed.history == s.history + [e1] && !TooFewNames(failed)
    requires |rolls2| == 2
    requires AllSpace(lead) && Stripped(reply) && AllSpace(trail)
    ensures Press(failed, Begin, rolls2, Answered(lead + reply + trail)).history
      == s.history + [e1, Entry(GroupSpeaker, DefaultMessage(Begin), reply)]
  {
    var e2 := Entry(GroupSpeaker, DefaultMessage(Begin), reply);
    PressAppends(failed, Begin, rolls2, Answered(lead + reply + trail));
    StripPadded(lead, reply, trail);
    AppendTwo(s.history, e1, e2);
  }

  /** Solver hint: appending two entries one after the other. Kept as a
      lemma because stating it inline in AnsweredAfter costs the solver far
      more than this separate proof. */
  lemma AppendTwo(h: seq<Entry>, a: Entry, b: Entry)
    ensures h + [a] + [b] == h + [a, b]
  {
  }
}

=== FILE: session.dfy ===
/**
  The chat panel's session state and its transitions: `generate_response`
  (pick the two names, fill in the default message, call the model, append
  one history entry), the chat form's guard against empty and repeated
  submissions, the two action buttons, and the newest-first rendering of
  the history.

  The call to the chat-completion service is an input: its outcome is a
  `Completion`, either the reply text or the text of the exception raised.
  The system prompt handed to that service is not modelled.
 */
module Session {
  import opened Text
  import opened Roster
  import opened Rotation

  /** One `(speaker, message, reply)` triple of `chat_history`. */
  datatype Entry = Entry(speaker: string, message: string, reply: string)

  /** The `trigger_source` tags `generate_response` is called with. */
  datatype Trigger = Experiment | Begin | Chat

  /** What the chat-completion call did: returned a reply, or raised. */
  datatype Completion = Answered(content: string) | Raised(detail: string)

  /** `st.session_state`: the history, the last chat message sent, the
      names called in this rotation, and the roster field. */
  datatype State = State(history: seq<Entry>, lastSent: string, used: set<string>, nameInput: string)

  /** `generate_response` always asks the picker for two names. */
  const GroupSize: nat := 2

  const GroupSpeaker := "Group"
  const ErrorSpeaker := "ERROR"

  /** The session as first rendered. */
  function Start(): (s: State)
    ensures s.history == [] && s.used == {}
    ensures s.lastSent == "" && s.nameInput == ""
  {
    State([], "", {}, "")
  }

  /** `user_input_defaults.get(trigger_source, "(No message)")`: each button
      has a canned message, and only a trigger without one falls back to
      `"(No message)"`. */
  function DefaultMessage(t: Trigger): (m: string)
    ensures m != ""
    ensures t == Chat <==> m == "(No message)"
  {
    match t
    case Experiment => "We think our experiment is ready. Can you check it?"
    case Begin => "We\U{201A}\U{00C4}\U{00F4}re not sure where to start. What do you suggest?"
    case Chat => "(No message)"
  }

  /** The message recorded for a dispatch: the typed one if any, otherwise
      the trigger's canned default. Never empty. */
  function ResolveMessage(t: Trigger, input: string): (m: string)
    ensures m != ""
    ensures input != "" ==> m == input
    ensures input == "" ==> m == DefaultMessage(t)
  {
    if input == "" then DefaultMessage(t) else input
  }

  /** The entry appended once the completion call has finished: the
      message as sent; a reply, with no white space at either end, under
      `Group`; or the exception text after `Error: ` under `ERROR`. */
  function Record(message: string, c: Completion): (e: Entry)
    ensures e.message == message
    ensures e.speaker == ErrorSpeaker <==> c.Raised?
    ensures c.Answered? ==> e.speaker == GroupSpeaker && Stripped(e.reply) && |e.reply| <= |c.content|
    ensures c.Answered? ==> e.reply == Strip(c.content)
    ensures c.Answered? && Stripped(c.content) ==> e.reply == c.content
    ensures c.Raised? ==> |e.reply| == |c.detail| + 7 && e.reply[..7] == "Error: " && e.reply[7..] == c.detail
  {
    match c
    case Answered(content) => Entry(GroupSpeaker, message, Strip(content))
    case Raised(detail) => Entry(ErrorSpeaker, message, "Error: " + detail)
  }

  /** A roster that the picker refuses: fewer than two entries. */
  predicate TooFewNames(s: State) {
    |ParseRoster(s.nameInput)| < GroupSize
  }

  /** `generate_response(trigger_source, user_input)`. `rolls` is the random
      source of the name picker, `c` the outcome of the completion call. */
  function Dispatch(s: State, t: Trigger, input: string, rolls: seq<nat>, c: Completion): (r: State)
    requires |rolls| == GroupSize
    ensures r.lastSent == s.lastSent && r.nameInput == s.nameInput
    ensures TooFewNames(s) <==> r.history == s.history
    ensures TooFewNames(s) ==> r == s
    ensures !TooFewNames(s) ==>
      && |r.history| == |s.history| + 1
      && r.history[..|s.history|] == s.history
      && r.history[|s.history|].message == ResolveMessage(t, input)
      && r.used == PickNames(s.nameInput, s.used, GroupSize, rolls).used
    ensures !TooFewNames(s) && c.Answered? ==>
      && r.history[|s.history|].speaker == GroupSpeaker
      && r.history[|s.history|].reply == Strip(c.content)
    ensures !TooFewNames(s) && c.Raised? ==>
      && r.history[|s.history|].speaker == ErrorSpeaker
      && r.history[|s.history|].reply == "Error: " + c.detail
  {
    match PickNames(s.nameInput, s.used, GroupSize, rolls)
    case Rejected(_, _) => s
    case Chosen(_, used, _) =>
      var entry := Record(ResolveMessage(t, input), c);
      assert (s.history + [entry])[..|s.history|] == s.history;
      s.(history := s.history + [entry], used := used)
  }

  /** The chat form sends a message only when it was submitted, is not empty
      and differs from the last message sent. */
  predicate Sends(s: State, submitted: bool, text: string) {
    submitted && text != "" && text != s.lastSent
  }

  /** One run of the chat form. `last_sent` is updated after every send,
      including one the picker refused. */
  function ChatSubmit(s: State, submitted: bool, text: string, rolls: seq<nat>, c: Completion): (r: State)
    requires |rolls| == GroupSize
    ensures !Sends(s, submitted, text) ==> r == s
    ensures Sends(s, submitted, text) ==> r.lastSent == text && r.nameInput == s.nameInput
    ensures Sends(s, submitted, text) && TooFewNames(s) ==> r.history == s.history && r.used == s.used
    ensures Sends(s, submitted, text) && !TooFewNames(s) ==>
      && r.history == s.history + [Record(text, c)]
      && r.used == PickNames(s.nameInput, s.used, GroupSize, rolls).used
  {
    if Sends(s, submitted, text) then
      Dispatch(s, Chat, text, rolls, c).(lastSent := text)
    else
      s
  }

  /** One of the two action buttons: a dispatch with no typed message. */
  function Press(s: State, button: Trigger, rolls: seq<nat>, c: Completion): (r: State)
    requires button != Chat
    requires |rolls| == GroupSize
    ensures r.lastSent == s.lastSent
    ensures TooFewNames(s) ==> r == s
    ensures !TooFewNames(s) ==>
      && |r.history| == |s.history| + 1 && r.history[|s.history|].message == DefaultMessage(button)
      && r.used == PickNames(s.nameInput, s.used, GroupSize, rolls).used
  {
    Dispatch(s, button, "", rolls, c)
  }

  /** A press on a roster that forms a group appends exactly the entry
      recording the button's default message and the completion. */
  lemma PressAppends(s: State, button: Trigger, rolls: seq<nat>, c: Completion)
    requires button != Chat && |rolls| == GroupSize
    requires !TooFewNames(s)
    ensures var r := Press(s, button, rolls, c);
      r.history == s.history + [Record(DefaultMessage(button), c)] && r.nameInput == s.nameInput
  {
  }

  /** `reversed(chat_history)`: newest entry first. */
  function Render(history: seq<Entry>): (shown: seq<Entry>)
    ensures |shown| == |history|
    ensures forall i :: 0 <= i < |history| ==> shown[i] == history[|history| - 1 - i]
  {
    if |history| == 0 then [] else Render(history[1..]) + [history[0]]
  }

  /** The entry appended last is the first one shown; the rest keep their
      newest-first order. */
  lemma RenderAppend(history: seq<Entry>, e: Entry)
    ensures Render(history + [e]) == [e] + Render(history)
  {
    var h := history + [e];
    assert forall i :: 0 < i < |h| ==> Render(h)[i] == Render(history)[i - 1];
  }

  /** Reading the rendered list back to front restores the history. */
  lemma RenderTwice(history: seq<Entry>)
    ensures Render(Render(history)) == history
  {
  }

  /** A second submission of the message just sent changes nothing, so it
      reaches neither the picker nor the completion service. */
  lemma RepeatIgnored(s: State, text: string, rolls: seq<nat>, c: Completion,
                      again: bool, rolls2: seq<nat>, c2: Completion)
    requires |rolls| == GroupSize && |rolls2| == GroupSize
    ensures var r := ChatSubmit(s, true, text, rolls, c);
      ChatSubmit(r, again, text, rolls2, c2) == r
  {
  }

  /** The user actions between two renders. */
  datatype Event =
    | Send(submitted: bool, text: string, sendRolls: seq<nat>, sendReply: Completion)
    | Click(button: Trigger, clickRolls: seq<nat>, clickReply: Completion)
    | Rename(roster: string)

  predicate WellFormed(ev: Event) {
    match ev
    case Send(_, _, rolls, _) => |rolls| == GroupSize
    case Click(button, rolls, _) => button != Chat && |rolls| == GroupSize
    case Rename(_) => true
  }

  /** One rerun of the page: a single user action. Every action keeps the
      history and appends at most one entry; editing the roster field
      touches nothing else. */
  function Step(s: State, ev: Event): (r: State)
    requires WellFormed(ev)
    ensures |s.history| <= |r.history| <= |s.history| + 1
    ensures r.history[..|s.history|] == s.history
    ensures ev.Rename? ==> r == s.(nameInput := ev.roster)
    ensures !ev.Rename? ==> r.nameInput == s.nameInput
  {
    match ev
    case Send(submitted, text, rolls, c) => ChatSubmit(s, submitted, text, rolls, c)
    case Click(button, rolls, c) => Press(s, button, rolls, c)
    case Rename(roster) => s.(nameInput := roster)
  }

  /** A session's actions in order. The history is a transcript: whatever
      happens, earlier entries stay as they were, and each action appends at
      most one entry. */
  function Run(s: State, events: seq<Event>): (r: State)
    requires forall i :: 0 <= i < |events| ==> WellFormed(events[i])
    ensures |s.history| <= |r.history| <= |s.history| + |events|
    ensures r.history[..|s.history|] == s.history
    decreases |events|
  {
    if |events| == 0 then
      s
    else
      var next := Step(s, events[0]);
      var r := Run(next, events[1..]);
      assert r.history[..|s.history|] == r.history[..|next.history|][..|s.history|];
      r
  }
}

=== FILE: text.dfy ===
/**
  The two pieces of Python string handling the name picker and the reply
  handling rely on: `str.strip()` with no argument, and `str.split(",")`.
  Strings are sequences of Unicode scalar values; no normalisation happens.
 */
module Text {

  /** How many ranges of code points Python's `str.isspace` accepts. */
  const SpaceRangeCount := 11

  /** The `k`-th range of code points `str.isspace` accepts: the characters
      `str.strip()` removes when called without an argument. */
  function SpaceRange(k: nat): (bounds: (char, char))
    requires k < SpaceRangeCount
  {
    if k == 0 then (' ', ' ')
    else if k == 1 then ('\t', '\r')
    else if k == 2 then ('\U{1c}', '\U{1f}')
    else if k == 3 then ('\U{85}', '\U{85}')
    else if k == 4 then ('\U{a0}', '\U{a0}')
    else if k == 5 then ('\U{1680}', '\U{1680}')
    else if k == 6 then ('\U{2000}', '\U{200a}')
    else if k == 7 then ('\U{2028}', '\U{2029}')
    else if k == 8 then ('\U{202f}', '\U{202f}')
    else if k == 9 then ('\U{205f}', '\U{205f}')
    else ('\U{3000}', '\U{3000}')
  }

  /** `c` lies in the `k`-th range or a later one. */
  predicate SpaceFrom(c: char, k: nat)
    requires k <= SpaceRangeCount
    decreases SpaceRangeCount - k
  {
    k < SpaceRangeCount && (SpaceRange(k).0 <= c <= SpaceRange(k).1 || SpaceFrom(c, k + 1))
  }

  /** Python's `str.isspace` for a single character. */
  predicate IsSpace(c: char) {
    SpaceFrom(c, 0)
  }

  /** The characters Python's `str.isspace` accepts, listed one by one:
      the ASCII controls tab to carriage return and file to unit separator,
      the space, NEL, no-break space, Ogham space mark, the typographic
      spaces U+2000 to U+200A, the line and paragraph separators, the narrow
      no-break space, the medium mathematical space and the ideographic
      space. Zero-width space U+200B, U+180E and U+FEFF are not among them. */
  const WhiteSpace: set<char> := {
    '\t', '\n', '\U{0b}', '\U{0c}', '\r', '\U{1c}', '\U{1d}', '\U{1e}', '\U{1f}', ' ',
    '\U{85}', '\U{a0}', '\U{1680}',
    '\U{2000}', '\U{2001}', '\U{2002}', '\U{2003}', '\U{2004}', '\U{2005}',
    '\U{2006}', '\U{2007}', '\U{2008}', '\U{2009}', '\U{200a}',
    '\U{2028}', '\U{2029}', '\U{202f}', '\U{205f}', '\U{3000}'
  }

  /** The range table behind IsSpace accepts exactly the listed characters. */
  lemma SpaceTable(c: char)
    ensures IsSpace(c) <==> c in WhiteSpace
  {
    SpaceRanges(c);
    if c < '\U{85}' {
      SpaceTableAscii(c);
    } else if c < '\U{2000}' {
      SpaceTableMiddle(c);
    } else {
      SpaceTableHigh(c);
    }
  }

  /** IsSpace unfolded: `c` lies in one of the eleven ranges. */
  lemma SpaceRanges(c: char)
    ensures IsSpace(c) <==> ('\t' <= c <= '\r' || '\U{1c}' <= c <= ' ' || c == '\U{85}' || c == '\U{a0}'
      || c == '\U{1680}' || '\U{2000}' <= c <= '\U{200a}' || c == '\U{2028}' || c == '\U{2029}'
      || c == '\U{202f}' || c == '\U{205f}' || c == '\U{3000}')
  {
    SpaceFromStep(c, 0);
    SpaceFromStep(c, 1);
    SpaceFromStep(c, 2);
    SpaceFromStep(c, 3);
    SpaceFromStep(c, 4);
    SpaceFromStep(c, 5);
    SpaceFromStep(c, 6);
    SpaceFromStep(c, 7);
    SpaceFromStep(c, 8);
    SpaceFromStep(c, 9);
    SpaceFromStep(c, 10);
  }

  /** One row of the range table. */
  lemma SpaceFromStep(c: char, k: nat)
    requires k < SpaceRangeCount
    ensures SpaceFrom(c, k) <==> SpaceRange(k).0 <= c <= SpaceRange(k).1 || SpaceFrom(c, k + 1)
  {
  }

  lemma SpaceTableAscii(c: char)
    requires c < '\U{85}'
    ensures c in WhiteSpace <==> '\t' <= c <= '\r' || '\U{1c}' <= c <= ' '
  {
  }

  lemma SpaceTableMiddle(c: char)
    requires '\U{85}' <= c < '\U{2000}'
    ensures c in WhiteSpace <==> c == '\U{85}' || c == '\U{a0}' || c == '\U{1680}'
  {
  }

  lemma SpaceTableHigh(c: char)
    requires '\U{2000}' <= c
    ensures c in WhiteSpace <==> (c <= '\U{200a}' || c == '\U{2028}' || c == '\U{2029}'
      || c == '\U{202f}' || c == '\U{205f}' || c == '\U{3000}')
  {
  }

  /** Every character of `s` is white space. */
  predicate AllSpace(s: string) {
    forall i :: 0 <= i < |s| ==> IsSpace(s[i])
  }

  /** Neither end of `s` is white space: what `strip()` leaves behind. */
  predicate Stripped(s: string) {
    |s| == 0 || (!IsSpace(s[0]) && !IsSpace(s[|s| - 1]))
  }

  /** The length of the white-space run at the start of `s`. */
  function LeadingSpace(s: string): (n: nat)
    ensures n <= |s|
    ensures forall i :: 0 <= i < n ==> IsSpace(s[i])
    ensures n == |s| || !IsSpace(s[n])
  {
    if |s| > 0 && IsSpace(s[0]) then
      var m := LeadingSpace(s[1..]);
      assert forall i :: 0 < i <= m ==> s[i] == s[1..][i - 1];
      1 + m
    else
      0
  }

  /** The length of the white-space run at the end of `s`. */
  function TrailingSpace(s: string): (n: nat)
    ensures n <= |s|
    ensures forall i :: |s| - n <= i < |s| ==> IsSpace(s[i])
    ensures n == |s| || !IsSpace(s[|s| - n - 1])
  {
    if |s| > 0 && IsSpace(s[|s| - 1]) then
      var m := TrailingSpace(s[..|s| - 1]);
      assert forall i :: 0 <= i < |s| - 1 ==> s[i] == s[..|s| - 1][i];
      1 + m
    else
      0
  }

  /** `s.strip()`: `s` without the white space at either end. Lemma
      StripPadded below pins the result down completely. */
  function Strip(s: string): (r: string)
    ensures Stripped(r)
    ensures |r| <= |s|
    ensures Stripped(s) ==> r == s
  {
    var t := s[LeadingSpace(s)..];
    var r := t[..|t| - TrailingSpace(t)];
    assert |r| > 0 ==> r[0] == s[LeadingSpace(s)] && r[|r| - 1] == t[|t| - TrailingSpace(t) - 1];
    r
  }

  /** Stripping only removes characters: one absent before is absent after. */
  lemma StripNoChar(s: string, c: char)
    requires c !in s
    ensures c !in Strip(s)
  {
    var a := LeadingSpace(s);
    var t := s[a..];
    var r := t[..|t| - TrailingSpace(t)];
    assert forall i :: 0 <= i < |r| ==> r[i] == s[a + i];
  }

  /** A run of white space in front adds to the leading run. */
  lemma {:induction false} LeadingSpaceAfter(lead: string, t: string)
    requires AllSpace(lead)
    ensures LeadingSpace(lead + t) == |lead| + LeadingSpace(t)
  {
    if |lead| > 0 {
      LeadingSpaceAfter(lead[1..], t);
      assert (lead + t)[1..] == lead[1..] + t;
      assert (lead + t)[0] == lead[0];
    } else {
      assert lead + t == t;
    }
  }

  /** A run of white space behind adds to the trailing run. */
  lemma {:induction false} TrailingSpaceBefore(t: string, trail: string)
    requires AllSpace(trail)
    ensures TrailingSpace(t + trail) == TrailingSpace(t) + |trail|
  {
    if |trail| > 0 {
      var last := |trail| - 1;
      TrailingSpaceBefore(t, trail[..last]);
      assert (t + trail)[..|t + trail| - 1] == t + trail[..last];
      assert (t + trail)[|t + trail| - 1] == trail[last];
    } else {
      assert t + trail == t;
    }
  }

  /** Stripping removes exactly the white space around a stripped core. */
  lemma StripPadded(lead: string, core: string, trail: string)
    requires AllSpace(lead) && AllSpace(trail) && Stripped(core)
    ensures Strip(lead + core + trail) == core
  {
    if |core| == 0 {
      assert lead + core + trail == lead + trail;
      StripBlank(lead, trail);
    } else {
      StripAroundCore(lead, core, trail);
    }
  }

  /** Nothing but white space strips to the empty string. */
  lemma StripBlank(lead: string, trail: string)
    requires AllSpace(lead) && AllSpace(trail)
    ensures Strip(lead + trail) == ""
  {
    LeadingSpaceAfter(lead, trail);
    assert trail == trail + "";
    LeadingSpaceAfter(trail, "");
  }

  /** StripPadded for a core that is not empty. */
  lemma StripAroundCore(lead: string, core: string, trail: string)
    requires AllSpace(lead) && AllSpace(trail) && |core| > 0 && Stripped(core)
    ensures Strip(lead + core + trail) == core
  {
    var s := lead + core + trail;
    assert LeadingSpace(s) == |lead| by {
      assert s == lead + (core + trail);
      LeadingSpaceAfter(lead, core + trail);
      assert (core + trail)[0] == core[0];
    }
    assert s[|lead|..] == core + trail;
    assert TrailingSpace(core + trail) == |trail| by {
      TrailingSpaceBefore(core, trail);
    }
    assert (core + trail)[..|core|] == core;
  }

  /** The space typed after a comma is stripped away again. */
  lemma StripOneSpace(core: string)
    requires Stripped(core)
    ensures Strip(" " + core) == core
  {
    assert AllSpace(" ") && AllSpace("");
    StripPadded(" ", core, "");
    assert " " + core + "" == " " + core;
  }

  /** `s.split(",")`: always at least one piece, and no piece holds a comma. */
  function Split(s: string): (pieces: seq<string>)
    ensures |pieces| >= 1
    ensures forall i :: 0 <= i < |pieces| ==> ',' !in pieces[i]
  {
    if |s| == 0 then
      [""]
    else
      var rest := Split(s[1..]);
      if s[0] == ',' then [""] + rest
      else [[s[0]] + rest[0]] + rest[1..]
  }

  /** `",".join(pieces)`. */
  function Join(pieces: seq<string>): string {
    if |pieces| == 0 then ""
    else if |pieces| == 1 then pieces[0]
    else pieces[0] + "," + Join(pieces[1..])
  }

  /** Splitting loses nothing: joining the pieces back gives the input. */
  lemma {:induction false} JoinSplit(s: string)
    ensures Join(Split(s)) == s
  {
    if |s| > 0 {
      var rest := Split(s[1..]);
      JoinSplit(s[1..]);
      if s[0] == ',' {
        assert Split(s) == [""] + rest;
        assert s == "" + "," + s[1..];
      } else {
        var pieces := [[s[0]] + rest[0]] + rest[1..];
        assert Split(s) == pieces;
        if |rest| == 1 {
          assert s == [s[0]] + rest[0];
        } else {
          assert pieces[1..] == rest[1..];
          assert Join(rest) == rest[0] + "," + Join(rest[1..]);
          assert s == [s[0]] + s[1..];
        }
      }
    }
  }

  /** Comma-free pieces survive a join followed by a split unchanged. */
  lemma {:induction false} SplitJoin(pieces: seq<string>)
    requires |pieces| >= 1
    requires forall i :: 0 <= i < |pieces| ==> ',' !in pieces[i]
    ensures Split(Join(pieces)) == pieces
  {
    if |pieces| == 1 {
      SplitCommaFree(pieces[0]);
    } else {
      var tail := Join(pieces[1..]);
      SplitJoin(pieces[1..]);
      SplitAfterPiece(pieces[0], tail);
      assert Join(pieces) == pieces[0] + "," + tail;
      assert pieces == [pieces[0]] + pieces[1..];
    }
  }

  /** A piece without a comma splits into itself alone. */
  lemma {:induction false} SplitCommaFree(p: string)
    requires ',' !in p
    ensures Split(p) == [p]
  {
    if |p| > 0 {
      assert ',' !in p[1..] by {
        forall i | 0 <= i < |p[1..]| ensures p[1..][i] != ',' {
          assert p[1..][i] == p[i + 1];
        }
      }
      SplitCommaFree(p[1..]);
      assert [p[0]] + p[1..] == p;
    }
  }

  /** Splitting two texts joined by a comma gives the pieces of the first
      followed by the pieces of the second. */
  lemma {:induction false} SplitConcat(a: string, b: string)
    ensures Split(a + "," + b) == Split(a) + Split(b)
  {
    var s := a + "," + b;
    if |a| == 0 {
      assert s == [','] + b;
      assert s[1..] == b;
    } else {
      assert s[0] == a[0];
      assert s[1..] == a[1..] + "," + b;
      SplitConcat(a[1..], b);
      var ra := Split(a[1..]);
      var rb := Split(b);
      if a[0] == ',' {
        assert Split(s) == [""] + (ra + rb);
        assert Split(a) == [""] + ra;
        AppendAssoc([""], ra, rb);
      } else {
        assert Split(s) == [[a[0]] + (ra + rb)[0]] + (ra + rb)[1..];
        assert Split(a) == [[a[0]] + ra[0]] + ra[1..];
        HeadAppend([a[0]], ra, rb);
      }
    }
  }

  /** Solver hint: associativity of concatenation, kept as a lemma so that
      SplitConcat does not have to find it among its other facts. */
  lemma AppendAssoc<T>(x: seq<T>, y: seq<T>, z: seq<T>)
    ensures x + (y + z) == (x + y) + z
  {
  }

  /** Extending the first of two non-empty sequences at its head. */
  lemma HeadAppend<T>(h: seq<T>, ra: seq<seq<T>>, rb: seq<seq<T>>)
    requires |ra| >= 1
    ensures [h + (ra + rb)[0]] + (ra + rb)[1..] == ([h + ra[0]] + ra[1..]) + rb
  {
    assert (ra + rb)[0] == ra[0];
    assert (ra + rb)[1..] == ra[1..] + rb;
  }

  /** A comma-free piece followed by a comma becomes the first piece. */
  lemma {:induction false} SplitAfterPiece(p: string, tail: string)
    requires ',' !in p
    ensures Split(p + "," + tail) == [p] + Split(tail)
  {
    var s := p + "," + tail;
    if |p| == 0 {
      assert s == [','] + tail;
      assert s[1..] == tail;
    } else {
      assert s[1..] == p[1..] + "," + tail;
      assert ',' !in p[1..] by {
        forall i | 0 <= i < |p[1..]| ensures p[1..][i] != ',' {
          assert p[1..][i] == p[i + 1];
        }
      }
      SplitAfterPiece(p[1..], tail);
      assert s[0] == p[0];
      assert [p[0]] + p[1..] == p;
    }
  }
}
